=== FILE: README.md ===
# Like button, modelled in Dafny

This project models the like button in `js/like.js`. The button keeps a per-page
state made of `liked` and `count`. It paints that state onto the page and keeps
it in step with one of three providers:

- **Local-only.** It toggles freely and keeps the flag and the count in
  `localStorage`.
- **Object store.** It talks to a hosted object store through its SDK (`window.AV`).
  It likes once and never un-likes, and it keeps the count in a remote record.
- **Endpoint.** It talks to a custom HTTP endpoint through `fetch`. It likes once
  and never un-likes: a GET reads the count and a POST adds a like.

The remote providers work in two phases. The click updates the state at once,
writes the local flag and renders; this is the optimistic phase. Later the
server's reply may replace the count, but only when the reply carries a number;
this is the reconciliation phase.

The project has four files:

- `storage.dfy`
  - `SafeStorage`: `safeGet`/`safeSet` over a string map, with flags for a
    store that cannot be read or written.
  - `Optional`: the absent value.
- `numbers.dfy`, `JsNumber`: `parseInt(s, 10)` and `String(n)` for integers.
  It proves that a count written as text reads back as the same count.
- `state.dfy`, `LikeState`: the protocol as pure functions. It covers:
  - the storage keys;
  - seeding from storage;
  - the local click and what it writes;
  - the remote click and what it writes;
  - reconciliation with a reply;
  - `render` as a projection.

  It also proves what holds over any sequence of events.
- `providers.dfy`, `Providers`: the three providers as classes. Each class keeps
  the closure variables of its `init…Like` function as fields.
  - Each handler is a method proved to follow the `LikeState` functions. The
    handlers are the click, the query/GET continuation and the save/POST
    continuation.
  - `Window` holds `localStorage`, `window.__likeAvInited` and the SDK
    initialisations made.
  - `Button` holds `dataset.bound`.
  - `InitPostLike` models the dispatch with its fallbacks and both once-only
    guards.

The count display element is always taken to be present. Its text is the
`shown.countText` each class keeps. Every class keeps the invariant
`shown == Render(State())`: what is on the page is the projection of the current
state.

Each asynchronous continuation is a separate method. It takes the call's outcome
as an argument:

- `Reply`: a number, a non-number, or a failure;
- `QueryReply`: a record with or without a count, no record, or a failure.

A continuation can run only after its call has been issued, and only once. It
may run before or after later clicks, in any order.

Both remote providers treat a reply the same way, whether it is numeric, not
numeric or a failure. Each repaints on a numeric reply. In each remote provider
the bind-time call also repaints when it fails (`QueryResolved`,
`FetchResolved`), and the click's call does not (`SaveResolved`,
`PostResolved`). A GET whose `count` is not a number does not repaint. A repaint
after a failure shows the state it already showed, so the view is the same
either way.

A click on an object-store button before its bind-time query has settled finds
no record yet, so it saves a new record for the page even when one exists
(js/like.js:94-98). The model allows exactly this: `LeanCloudLike.Click` puts no
condition on `queryPending`, and it appends `SaveNew` whenever no record is
known. The remote tally can therefore gain a duplicate record; nothing here
protects it.

## Model

| member | source | states |
|---|---|---|
| SafeStorage.SafeGet | js/like.js:2-8 | a read gives a value exactly when the store is readable and holds the key, and then it is the stored string |
| SafeStorage.SafeSet | js/like.js:10-16 | a write updates that one key when the store accepts writes, and otherwise leaves the store as it was |
| SafeStorage.GetAfterSet | js/like.js:2-16 | after an accepted write, reading that key gives the written value, and reading any other key gives what it gave before |
| JsNumber.LeadingDigits | js/like.js:23 | the digit run `parseInt` reads is a prefix of the text, all digits, and the longest one: the next character is not a digit |
| JsNumber.TrimStart | js/like.js:23 | `parseInt` skips exactly the leading white space: every dropped character is white space, what remains is the rest of the text, and it does not start with white space |
| JsNumber.ParseInt | js/like.js:23 | a number is read only when, after white space, the text starts with a digit or a sign, and a negative number only after a minus sign |
| JsNumber.NatToString | js/like.js:36 | `String(n)` of a non-negative count is a non-empty run of decimal digits, "0" for 0 and without a leading zero otherwise |
| JsNumber.IntToString | js/like.js:36 | `String(n)` is non-empty and starts with a minus sign exactly when `n` is negative |
| JsNumber.IntToStringShape | js/like.js:29 | the displayed text of a count is canonical: digits after an optional minus sign, no leading zero except for 0 itself |
| JsNumber.ParseIntOfIntToString | js/like.js:23 | `parseInt(String(n) + rest, 10)` is `n` for every integer `n` when `rest` does not continue the digits |
| JsNumber.ParseIntSkipsSpace | js/like.js:23 | leading white space never changes what `parseInt` returns |
| JsNumber.ParseZero | js/like.js:23 | the fallback text `'0'` of an absent count parses to 0 |
| JsNumber.NoDigitsIsNaN | js/like.js:23-24 | a text without any digit parses to NaN |
| JsNumber.IntToStringInjective | js/like.js:29 | two different counts are never rendered as the same text |
| LikeState.FlagKey | js/like.js:19 | the flag key is the namespace "hexo-like:" followed by the page identity, which it determines |
| LikeState.CountKey | js/like.js:19-20 | the count key of a page is never its flag key |
| LikeState.FlagKeyCanBeCountKey | js/like.js:19-20 | the flag key of identity `id + ":count"` is the count key of identity `id`, so the two key families can overlap |
| LikeState.SeedLiked | js/like.js:22 | a button seeds as liked exactly when its flag entry reads as the text "1" |
| LikeState.SeedCount | js/like.js:23-24 | an absent or non-numeric count entry seeds 0; otherwise the count is what `parseInt` reads from the entry |
| LikeState.LocalSeed | js/like.js:22-24 | the local button starts liked exactly when the flag entry is "1", with count 0 when the count entry is absent or reads as NaN and the value `parseInt` reads otherwise |
| LikeState.RemoteSeed | js/like.js:61-62 | a remote button starts with the flag the local provider would read and with count 0 |
| LikeState.LocalClick | js/like.js:33-34 | a local click flips `liked`; becoming liked adds one to a non-negative count, becoming unliked takes one from a positive count, and any count that would go below 0 becomes 0 |
| LikeState.LocalPersist | js/like.js:35-36 | a local click stores "1"/"0" under the flag key and the decimal text of the count under the count key when the store accepts writes, leaves the store as it was when it does not, and never changes another key's read |
| LikeState.PersistRoundTrip | js/like.js:22-36 | seeding from a working store after a local click's writes gives back exactly the state that was written |
| LikeState.LocalRunParity | js/like.js:32-38 | after `n` local clicks `liked` has flipped `n` times, and after at least one click the count is at least 0 |
| LikeState.LocalRunFromUnliked | js/like.js:32-38 | starting unliked with `c` likes, local clicks alternate between `(true, c + 1)` and `(false, c)` |
| LikeState.LocalRunFromLikedAtZero | js/like.js:32-38 | starting liked with 0 likes (a flag stored without a count), the first click gives `(false, 0)` and later clicks alternate with `(true, 1)` |
| LikeState.LocalRunFromLiked | js/like.js:32-38 | starting liked with `c >= 1` likes, local clicks alternate between `(false, c - 1)` and `(true, c)` |
| LikeState.RemoteClick | js/like.js:87-89 | a remote click leaves the button liked: it is a no-op when already liked, and otherwise it adds one to the count |
| LikeState.RemoteClickStore | js/like.js:90 | a remote click writes "1" to the flag entry only when it was not liked, and it never changes any other key |
| LikeState.Reconcile | js/like.js:103-107 | a numeric reply replaces the count, any other outcome leaves the state alone, and `liked` never changes |
| LikeState.CountOrZero | js/like.js:77 | a record's count is kept unless it is absent or 0, which both give 0 |
| LikeState.ApplyQuery | js/like.js:74-84 | a found record sets the count from its `count` field (0 when absent), no record sets 0, a failure changes nothing, and `liked` never changes |
| LikeState.RemoteNeverUnlikes | js/like.js:86-111 | whatever clicks, replies and query outcomes arrive, in any order, a remote button ends liked exactly when it started liked or was clicked |
| LikeState.RemoteClicksIgnoredWhenLiked | js/like.js:87 | any number of clicks on a liked remote button leaves its state unchanged |
| LikeState.Render | js/like.js:26-30 | the `is-liked` class is the flag, `aria-pressed` is "true" or "false" and "true" exactly when liked, and the count text is non-empty and negative-signed exactly for a negative count |
| LikeState.RenderShowsState | js/like.js:26-30 | `aria-pressed` is "true" exactly when `is-liked` is set, the count text reads back as the count, and two different states never render alike |
| Providers.Window.constructor | js/like.js:55 | a fresh page has no SDK initialised |
| Providers.Button.constructor | js/like.js:198 | a button starts with the given bound marker |
| Providers.LocalLike.constructor | js/like.js:18-40 | the local button's state is the seed read from storage, its keys are the page's flag and count keys, and the view shows that state |
| Providers.LocalLike.Click | js/like.js:32-38 | the state becomes `LocalClick` of the old state, the store becomes `LocalPersist` of the new state, and a working store then reloads to exactly the state on screen |
| Providers.RecordTitle | js/like.js:97 | a new record's title is the page title when it is non-empty, and otherwise the identity |
| Providers.LeanCloudLike.constructor | js/like.js:60-84 | the object-store button seeds its flag from storage with count 0, issues one query for its identity, and nothing else |
| Providers.LeanCloudLike.QueryResolved | js/like.js:74-84 | the query's outcome is applied as `ApplyQuery`; a found record becomes the record later saves update |
| Providers.LeanCloudLike.Click | js/like.js:86-102 | the state becomes `RemoteClick`, the store changes only by the flag write, a liked button changes nothing, and otherwise exactly one save follows: a new record with count 1, or an increment of 1 of the known one |
| Providers.LeanCloudLike.SaveResolved | js/like.js:102-110 | the save's outcome is applied as `Reconcile`; the button stays liked |
| Providers.BuildEndpoint | js/like.js:116-126 | there is no URL without an endpoint; otherwise the URL carries the identity, and it carries a title parameter exactly when the title is non-empty, that parameter being the title |
| Providers.TokenHeader | js/like.js:156 | the `X-Like-Token` header is sent exactly when the token is non-empty, and then it carries the token unchanged |
| Providers.WorkerLike.constructor | js/like.js:135-190 | the endpoint button seeds its flag from storage with count 0, renders, and issues one GET to its URL |
| Providers.WorkerLike.FetchResolved | js/like.js:152-166 | the GET's outcome is applied as `Reconcile` |
| Providers.WorkerLike.Click | js/like.js:168-178 | the state becomes `RemoteClick`, the store changes only by the flag write, a liked button changes nothing, and otherwise exactly one POST to the same URL with the same header follows |
| Providers.WorkerLike.PostResolved | js/like.js:179-186 | the POST's outcome is applied as `Reconcile`; the button stays liked |
| Providers.Attr | js/like.js:202-211 | an absent or empty attribute gives the default, and any other gives its value |
| Providers.LikeIdOf | js/like.js:202 | the identity is the `data-like-id` attribute when present and non-empty, and the path otherwise, stated both ways |
| Providers.TitleOf | js/like.js:203 | the title is the `data-like-title` attribute when present and non-empty, and the document title otherwise, stated both ways |
| Providers.ProviderOf | js/like.js:204 | the provider name is the `data-like-provider` attribute when present and non-empty, and "local" otherwise, so it is never empty |
| Providers.ConfigOf | js/like.js:205-212 | each setting is its attribute when present and non-empty, and otherwise "" ("PostLike" for the class name, which is never empty) |
| Providers.SelectProvider | js/like.js:214-220 | "leancloud" names the object store, "worker" and "cloudflare" name the endpoint, and every other name means local, each in both directions |
| Providers.Dispatch | js/like.js:214-220 | "leancloud" gives the object store exactly when app id, app key and SDK are there; "worker" or "cloudflare" gives the endpoint exactly when an endpoint and `fetch` are there; anything else is local |
| Providers.InitLeanCloudLike | js/like.js:43-58 | without credentials or SDK the result is the local button, and nothing on the page changes; otherwise the SDK is initialised with this button's settings unless it already was, and an object-store button is bound |
| Providers.InitWorkerLike | js/like.js:128-150 | without an endpoint or `fetch` the result is the local button; otherwise an endpoint button is bound to the URL built once at bind time |
| Providers.InitPostLike | js/like.js:193-221 | a button is bound exactly when there is a container, a button and no bound marker; it is marked bound and served by `Dispatch`'s provider; the SDK is initialised at most once per page, and only by an object-store button |

## Left out

- Browser glue is not modelled: the DOM queries for the container and elements, `classList`/`setAttribute`, listener registration, and the `DOMContentLoaded`/`pjax:complete` wiring. `render` is kept as the projection `Render` and the `shown` field.
- The count display element is assumed present. Without it, `render` writes no count text. That changes only what is painted, never the state.
- The SDK's internals (`Object.extend`, `Query`, `save`, `increment`) are replaced by the recorded calls (`AvCall`) and by the outcome passed to each continuation. So are `fetch` and `res.json()`, replaced by the recorded requests (`Request`) and that outcome.
- Timing is not modelled: when a continuation runs relative to other buttons on the page. Nothing is shared between buttons except the store and the SDK flag.
- `localStorage` failures are modelled as two fixed flags: the store can be read or not, and written or not. A quota failure on one write but not the next is not modelled.
- JsNumber.IntToString: counts are unbounded integers. The model does not capture JavaScript numbers above 2^53, where `count + 1` loses precision. Nor does it capture the exponent notation `String` uses from 10^21 on.
- JsNumber.ParseInt: reads a count of any length exactly. In JavaScript, a digit run beyond 2^53 is rounded.
- LikeState.ApplyQuery: a record whose `count` field is a truthy non-number is not modelled. The source would then hold a string as the count. Nor is a fractional or infinite numeric `count`. A `count` of 0 or absent gives 0, as in the source.
- LikeState.Reconcile: a reply's number is an integer here. The source accepts any JavaScript number, so a fractional count such as 2.5, or an infinite one, would be stored and displayed; the model does not capture that.
- Providers.BuildEndpoint: does not model URL resolution against `location.origin`, query-string encoding, or the exception `new URL` throws on a malformed endpoint. Such an exception would leave the button marked bound but without a handler. As a result the `!getUrl` fallback of `initWorkerLike` (js/like.js:147-150) is reached only for an empty endpoint, which the first guard already sends to the local provider.
- Two points where `js/like.js` behaves less uniformly than one might expect (this model follows the code):
  - In each remote provider the bind-time call repaints on failure (js/like.js:82-84, 163-165) and the click's call does not (js/like.js:108-110, 184-186). A GET whose `count` is not a number does not repaint (js/like.js:159-162). It changes nothing, so the view is the same either way.
  - Buttons for different identities can share a storage entry. `FlagKeyCanBeCountKey` shows how: the flag entry of `x:count` is the count entry of `x`.

=== FILE: numbers.dfy ===
/**
  The two number conversions the like button relies on: `parseInt(s, 10)`,
  which seeds the count from its stored text, and `String(n)`, which writes
  it back and renders it.

  Counts are integers here. `parseInt` follows section 19.2.5 of
  ECMAScript 2024: skip leading white space, read an optional sign, then the
  longest run of decimal digits; no digit at all gives NaN, written `None`.
  The negative zero that `parseInt("-0")` returns is identified with 0, which
  is what every later use of the count (`+`, `Math.max`, `String`) makes of it.
 */
module JsNumber {
  import opened Optional

  predicate IsDigit(c: char) {
    '0' <= c <= '9'
  }

  predicate AllDigits(s: string) {
    forall i :: 0 <= i < |s| ==> IsDigit(s[i])
  }

  /** The characters ECMAScript's StrWhiteSpaceChar admits: WhiteSpace and LineTerminator. */
  predicate IsJsSpace(c: char) {
    || c == '\t' || c == '\n' || c == '\U{B}' || c == '\U{C}' || c == '\r' || c == ' '
    || c == '\U{A0}' || c == '\U{1680}' || ('\U{2000}' <= c <= '\U{200A}')
    || c == '\U{2028}' || c == '\U{2029}' || c == '\U{202F}' || c == '\U{205F}'
    || c == '\U{3000}' || c == '\U{FEFF}'
  }

  function DigitValue(c: char): (d: nat)
    requires IsDigit(c)
    ensures d < 10
  {
    (c as int) - ('0' as int)
  }

  function DigitChar(d: nat): (c: char)
    requires d < 10
    ensures IsDigit(c) && DigitValue(c) == d
  {
    (('0' as int) + d) as char
  }

  /** The value of a run of decimal digits, most significant first. */
  function DigitsValue(s: string): nat
    requires AllDigits(s)
  {
    if s == [] then 0 else DigitsValue(s[..|s| - 1]) * 10 + DigitValue(s[|s| - 1])
  }

  /** The longest prefix of `s` made of decimal digits. */
  function LeadingDigits(s: string): (r: string)
    ensures AllDigits(r) && |r| <= |s| && r == s[..|r|]
    ensures |r| < |s| ==> !IsDigit(s[|r|])
  {
    if s != [] && IsDigit(s[0]) then [s[0]] + LeadingDigits(s[1..]) else []
  }

  /** `s` without its leading white space. */
  function TrimStart(s: string): (r: string)
    ensures r == [] || !IsJsSpace(r[0])
    ensures |r| <= |s| && r == s[|s| - |r|..]
    ensures forall i :: 0 <= i < |s| - |r| ==> IsJsSpace(s[i])
  {
    if s != [] && IsJsSpace(s[0]) then TrimStart(s[1..]) else s
  }

  /**
    `parseInt(s, 10)`; `None` stands for NaN. A number is read only when,
    after the white space, the text starts with a digit or a sign, and a
    negative one only after a minus sign.
   */
  function ParseInt(s: string): (r: Option<int>)
    ensures r.Some? ==> var t := TrimStart(s); t != [] && (IsDigit(t[0]) || t[0] == '-' || t[0] == '+')
    ensures r.Some? && r.value < 0 ==> TrimStart(s)[0] == '-'
  {
    ParseTrimmed(TrimStart(s))
  }

  /** `parseInt` once the leading white space is gone: optional sign, then digits. */
  function ParseTrimmed(t: string): Option<int> {
    var digits := LeadingDigits(Unsigned(t));
    var magnitude: int := DigitsValue(digits);
    if digits == [] then None
    else if t[0] == '-' then Some(-magnitude)
    else Some(magnitude)
  }

  /** `t` without its leading sign, if any. */
  function Unsigned(t: string): (u: string)
    ensures |u| <= |t|
  {
    if t != [] && (t[0] == '-' || t[0] == '+') then t[1..] else t
  }

  /** `String(n)` for a non-negative integer: its decimal digits, no leading zero. */
  function NatToString(n: nat): (r: string)
    ensures |r| >= 1 && AllDigits(r)
    ensures n == 0 ==> r == "0"
    ensures n > 0 ==> r[0] != '0'
  {
    if n < 10 then [DigitChar(n)] else NatToString(n / 10) + [DigitChar(n % 10)]
  }

  /** `String(n)` for an integer (below 10^21, where JavaScript switches to exponent form). */
  function IntToString(n: int): (r: string)
    ensures r != []
    ensures r[0] == '-' <==> n < 0
  {
    if n < 0 then "-" + NatToString(-n) else NatToString(n)
  }

  /**
    The text of an integer is canonical: digits only, after a minus sign
    exactly when negative, and no leading zero except for 0 itself.
   */
  lemma IntToStringShape(n: int)
    ensures n >= 0 ==> AllDigits(IntToString(n)) && (IntToString(n)[0] == '0' <==> n == 0)
    ensures n < 0 ==> |IntToString(n)| >= 2 && AllDigits(IntToString(n)[1..]) && IntToString(n)[1] != '0'
  {
    if n < 0 {
      assert IntToString(n)[1..] == NatToString(-n);
    }
  }

  lemma {:induction false} DigitsValueOfNatToString(n: nat)
    ensures DigitsValue(NatToString(n)) == n
  {
    var r := NatToString(n);
    if n >= 10 {
      DigitsValueOfNatToString(n / 10);
      assert r[..|r| - 1] == NatToString(n / 10);
    }
  }

  /** A digit run followed by anything that does not start with a digit is read up to its end. */
  lemma {:induction false} LeadingDigitsOfDigitRun(d: string, rest: string)
    requires AllDigits(d)
    requires rest == [] || !IsDigit(rest[0])
    ensures LeadingDigits(d + rest) == d
  {
    if d != [] {
      assert (d + rest)[1..] == d[1..] + rest;
      LeadingDigitsOfDigitRun(d[1..], rest);
    }
  }

  /** Leading white space does not change what `parseInt` reads. */
  lemma {:induction false} ParseIntSkipsSpace(ws: string, s: string)
    requires forall i :: 0 <= i < |ws| ==> IsJsSpace(ws[i])
    ensures ParseInt(ws + s) == ParseInt(s)
  {
    if ws != [] {
      assert (ws + s)[1..] == ws[1..] + s;
      assert IsJsSpace((ws + s)[0]);
      assert TrimStart(ws + s) == TrimStart(ws[1..] + s);
      ParseIntSkipsSpace(ws[1..], s);
    } else {
      assert ws + s == s;
    }
  }

  /**
    Round trip: `parseInt(String(n) + rest, 10)` is `n` whenever `rest` does not
    continue the digit run; in particular `parseInt(String(n), 10) == n`.
   */
  lemma ParseIntOfIntToString(n: int, rest: string)
    requires rest == [] || !IsDigit(rest[0])
    ensures ParseInt(IntToString(n) + rest) == Some(n)
  {
    TrimStartKeeps(IntToString(n) + rest);
    ParseTrimmedOfIntToString(n, rest);
  }

  lemma ParseTrimmedOfIntToString(n: int, rest: string)
    requires rest == [] || !IsDigit(rest[0])
    ensures ParseTrimmed(IntToString(n) + rest) == Some(n)
  {
    if n < 0 {
      ParseTrimmedOfNegativeInt(n, rest);
    } else {
      ParseTrimmedOfNat(n, rest);
    }
  }

  lemma ParseTrimmedOfNegativeInt(n: int, rest: string)
    requires n < 0
    requires rest == [] || !IsDigit(rest[0])
    ensures ParseTrimmed(IntToString(n) + rest) == Some(n)
  {
    NegativeText(n, rest);
    DigitsValueOfNatToString(-n);
    ParseTrimmedOfNegative(NatToString(-n), -n, rest, IntToString(n) + rest);
  }

  lemma ParseTrimmedOfNat(n: nat, rest: string)
    requires rest == [] || !IsDigit(rest[0])
    ensures ParseTrimmed(NatToString(n) + rest) == Some(n)
  {
    DigitsValueOfNatToString(n);
    ParseTrimmedOfDigits(NatToString(n), rest, NatToString(n) + rest);
  }

  lemma NegativeText(n: int, rest: string)
    requires n < 0
    ensures IntToString(n) + rest == ['-'] + (NatToString(-n) + rest)
  {
  }

  /** A digit run followed by a non-digit reads as its value. */
  lemma ParseTrimmedOfDigits(digits: string, rest: string, text: string)
    requires AllDigits(digits) && digits != []
    requires rest == [] || !IsDigit(rest[0])
    requires text == digits + rest
    ensures ParseTrimmed(text) == Some(DigitsValue(digits))
  {
    assert Unsigned(text) == text by {
      assert text[0] == digits[0];
    }
    LeadingDigitsOfDigitRun(digits, rest);
  }

  /** A minus sign, a digit run and then a non-digit read as the negated value. */
  lemma ParseTrimmedOfNegative(digits: string, m: nat, rest: string, text: string)
    requires AllDigits(digits) && digits != [] && DigitsValue(digits) == m
    requires rest == [] || !IsDigit(rest[0])
    requires text == ['-'] + (digits + rest)
    ensures ParseTrimmed(text) == Some(0 - m)
  {
    assert Unsigned(text) == digits + rest by {
      assert text[1..] == digits + rest;
    }
    LeadingDigitsOfDigitRun(digits, rest);
  }

  /** Text that starts with a digit or a minus sign has no leading white space to trim. */
  lemma TrimStartKeeps(t: string)
    requires t != [] && (IsDigit(t[0]) || t[0] == '-')
    ensures TrimStart(t) == t
  {
    assert !IsJsSpace(t[0]);
  }

  /** `parseInt('0', 10)`, the fallback text of an absent count. */
  lemma ParseZero()
    ensures ParseInt("0") == Some(0)
  {
    ParseIntOfIntToString(0, "");
    assert IntToString(0) + "" == "0";
  }

  /** A string without any decimal digit parses to NaN. */
  lemma NoDigitsIsNaN(s: string)
    requires forall i :: 0 <= i < |s| ==> !IsDigit(s[i])
    ensures ParseInt(s) == None
  {
    var t := TrimStart(s);
    var unsigned := if t != [] && (t[0] == '-' || t[0] == '+') then t[1..] else t;
    if unsigned != [] {
      assert unsigned[0] in s;
    }
  }

  /** Two integers with the same decimal text are equal. */
  lemma IntToStringInjective(a: int, b: int)
    requires IntToString(a) == IntToString(b)
    ensures a == b
  {
    ParseIntOfIntToString(a, "");
    ParseIntOfIntToString(b, "");
    assert IntToString(a) + "" == IntToString(a);
    assert IntToString(b) + "" == IntToString(b);
  }
}

=== FILE: providers.dfy ===
/**
  The three like-button providers of js/like.js as objects whose fields are
  the closure variables of `initLocalLike`, `initLeanCloudLike` and
  `initWorkerLike`, together with the page-wide state they share and the
  `initPostLike` entry point that picks one of them.

  Each handler the source registers becomes a method: a click, and for the
  remote providers the continuations that run when a network call settles.
  Those continuations may run in any order relative to later clicks; a
  continuation can only run once its call has been issued and only once.
  What a remote call returns is the continuation's argument.
 */
module Providers {
  import opened Optional
  import opened SafeStorage
  import opened JsNumber
  import opened LikeState

  /** The arguments of `window.AV.init`. */
  datatype AvConfig = AvConfig(appId: string, appKey: string, serverURL: string)

  /** The page-wide state: `localStorage`, the SDK init flag and what the browser provides. */
  class Window {
    var storage: Storage
    /** `window.__likeAvInited` */
    var avInited: bool
    /** Every `window.AV.init(...)` call made so far, in order. */
    var avInits: seq<AvConfig>
    /** Whether `window.AV` (the object-store SDK) is loaded. */
    const hasAv: bool
    /** Whether `window.fetch` exists. */
    const hasFetch: bool
    const pathname: string
    const documentTitle: string

    /** The SDK has been initialised at most once, and exactly when the flag is set. */
    ghost predicate Valid()
      reads this
    {
      |avInits| <= 1 && (avInited <==> |avInits| == 1)
    }

    constructor (storage: Storage, hasAv: bool, hasFetch: bool, pathname: string, documentTitle: string)
      ensures Valid() && !avInited && avInits == []
      ensures this.storage == storage && this.hasAv == hasAv && this.hasFetch == hasFetch
      ensures this.pathname == pathname && this.documentTitle == documentTitle
    {
      this.storage := storage;
      this.hasAv := hasAv;
      this.hasFetch := hasFetch;
      this.pathname := pathname;
      this.documentTitle := documentTitle;
      avInited := false;
      avInits := [];
    }
  }

  /** The clickable element; `bound` stands for `btn.dataset.bound === '1'`. */
  class Button {
    var bound: bool

    constructor (bound: bool)
      ensures this.bound == bound
    {
      this.bound := bound;
    }
  }

  /* ------------------------------------------------------------- local only */

  /** `initLocalLike`: toggles freely and keeps both flag and count in local storage. */
  class LocalLike {
    const win: Window
    const likeId: string
    const key: string
    const countKey: string
    var liked: bool
    var count: int
    /** What the last `render()` put on the page. */
    var shown: View

    function State(): LikeState
      reads this
    {
      LikeState(liked, count)
    }

    ghost predicate Valid()
      reads this
    {
      key == FlagKey(likeId) && countKey == CountKey(likeId) && shown == Render(State())
    }

    /** Seed from storage and render (js/like.js:18-30, 40). */
    constructor (win: Window, likeId: string)
      ensures Valid() && this.win == win && this.likeId == likeId
      ensures State() == LocalSeed(win.storage, likeId)
    {
      this.win := win;
      this.likeId := likeId;
      key := FlagKey(likeId);
      countKey := CountKey(likeId);
      var seeded := SafeGet(win.storage, FlagKey(likeId)) == Some("1");
      var raw := SafeGet(win.storage, CountKey(likeId));
      var parsed := ParseInt(if raw.None? || raw.value == "" then "0" else raw.value);
      var n := if parsed.None? then 0 else parsed.value;
      liked, count := seeded, n;
      shown := Render(LikeState(seeded, n));
    }

    /**
      The click handler (js/like.js:32-38): flip, adjust the count, write both
      entries, render. Afterwards the storage, if it works, reloads to exactly
      the state on screen.
     */
    method Click()
      requires Valid()
      modifies this, win`storage
      ensures Valid()
      ensures State() == LocalClick(old(State()))
      ensures win.storage == LocalPersist(old(win.storage), likeId, State())
      ensures win.storage.readable && win.storage.writable ==> LocalSeed(win.storage, likeId) == State()
    {
      liked := !liked;
      count := Max(0, count + (if liked then 1 else -1));
      win.storage := SafeSet(win.storage, key, if liked then "1" else "0");
      win.storage := SafeSet(win.storage, countKey, IntToString(count));
      shown := Render(State());
      if win.storage.readable && win.storage.writable {
        PersistRoundTrip(old(win.storage), likeId, State());
      }
    }
  }

  /* ----------------------------------------------------- remote object store */

  /** The object-store SDK calls the button makes. */
  datatype AvCall =
    | FirstMatch(className: string, url: string)                           // query `url == likeId`, first match
    | SaveNew(className: string, url: string, title: string, count: int)   // a new record, then `save()`
    | SaveIncrement(amount: int)                                           // `increment('count', …)`, then `save()`

  /** `title || likeId`: the title stored on a new record. */
  function RecordTitle(title: string, likeId: string): (r: string)
    ensures title != "" ==> r == title
    ensures title == "" ==> r == likeId
  {
    if title != "" then title else likeId
  }

  /** `initLeanCloudLike` once its prerequisites are met: like once, count kept remotely. */
  class LeanCloudLike {
    const win: Window
    const likeId: string
    const title: string
    const className: string
    const key: string
    var liked: bool
    var count: int
    /** `likeObj !== null` */
    var hasRecord: bool
    var shown: View
    /** The bind-time query has been issued and has not settled. */
    var queryPending: bool
    /** The click's save has been issued and has not settled. */
    var savePending: bool
    var calls: seq<AvCall>

    function State(): LikeState
      reads this
    {
      LikeState(liked, count)
    }

    /**
      The query is the first call; at most one save follows it, and only once
      the button is liked.
     */
    ghost predicate Valid()
      reads this
    {
      && key == FlagKey(likeId)
      && shown == Render(State())
      && 1 <= |calls| <= 2
      && calls[0] == FirstMatch(className, likeId)
      && (|calls| == 2 ==> liked)
      && (savePending ==> |calls| == 2)
    }

    /** Seed the flag from storage, count 0, issue the query, render (js/like.js:60-84, 113). */
    constructor (win: Window, likeId: string, title: string, className: string)
      ensures Valid() && this.win == win && this.likeId == likeId
      ensures this.title == title && this.className == className
      ensures State() == RemoteSeed(win.storage, likeId)
      ensures calls == [FirstMatch(className, likeId)]
      ensures queryPending && !savePending && !hasRecord
    {
      this.win := win;
      this.likeId := likeId;
      this.title := title;
      this.className := className;
      key := FlagKey(likeId);
      var seeded := SafeGet(win.storage, FlagKey(likeId)) == Some("1");
      liked := seeded;
      count := 0;
      hasRecord := false;
      calls := [FirstMatch(className, likeId)];
      queryPending := true;
      savePending := false;
      shown := Render(LikeState(seeded, 0));
    }

    /** The query settles (js/like.js:74-84): a record found sets the count, none found sets 0. */
    method QueryResolved(q: QueryReply)
      requires Valid() && queryPending
      modifies this
      ensures Valid() && !queryPending
      ensures State() == ApplyQuery(old(State()), q)
      ensures hasRecord == (old(hasRecord) || q.Found?)
      ensures calls == old(calls) && savePending == old(savePending)
    {
      match q {
        case Found(field) =>
          hasRecord := true;
          count := CountOrZero(field);
        case NotFound =>
          count := 0;
        case QueryFailed =>
      }
      shown := Render(State());
      queryPending := false;
    }

    /**
      The synchronous part of the click handler (js/like.js:86-102): nothing
      when already liked; otherwise like, count one more, write the flag only,
      render, and save a new record or an increment of the known one.
     */
    method Click()
      requires Valid()
      modifies this, win`storage
      ensures Valid()
      ensures State() == RemoteClick(old(State()))
      ensures win.storage == RemoteClickStore(old(win.storage), likeId, old(State()))
      ensures old(liked) ==> unchanged(this)
      ensures !old(liked) ==> savePending && hasRecord && queryPending == old(queryPending)
      ensures !old(liked) ==> calls == old(calls) + [if old(hasRecord) then SaveIncrement(1)
                                                     else SaveNew(className, likeId, RecordTitle(title, likeId), 1)]
    {
      if liked {
        return;
      }
      liked := true;
      count := count + 1;
      win.storage := SafeSet(win.storage, key, "1");
      shown := Render(State());
      if !hasRecord {
        hasRecord := true;
        calls := calls + [SaveNew(className, likeId, RecordTitle(title, likeId), 1)];
      } else {
        calls := calls + [SaveIncrement(1)];
      }
      savePending := true;
    }

    /** The save settles (js/like.js:102-110): a numeric saved count replaces the count. */
    method SaveResolved(reply: Reply)
      requires Valid() && savePending
      modifies this
      ensures Valid() && !savePending && liked
      ensures State() == Reconcile(old(State()), reply)
      ensures calls == old(calls) && hasRecord == old(hasRecord) && queryPending == old(queryPending)
    {
      if reply.Number? {
        count := reply.value;
        shown := Render(State());
      }
      savePending := false;
    }
  }

  /* ------------------------------------------------------- remote endpoint */

  /**
    The resolved endpoint URL: the configured endpoint with the identity and,
    when there is one, the title as query parameters.
   */
  datatype Target = Target(endpoint: string, url: string, title: Option<string>)

  /** `buildEndpoint`: no URL without an endpoint; the title parameter only when non-empty. */
  function BuildEndpoint(endpoint: string, likeId: string, title: string): (r: Option<Target>)
    ensures r.None? <==> endpoint == ""
    ensures r.Some? ==> r.value.endpoint == endpoint && r.value.url == likeId
    ensures r.Some? ==> (r.value.title.Some? <==> title != "")
    ensures r.Some? && title != "" ==> r.value.title == Some(title)
  {
    if endpoint == "" then None
    else Some(Target(endpoint, likeId, if title != "" then Some(title) else None))
  }

  /** The `X-Like-Token` header, sent only when the token is non-empty. */
  function TokenHeader(token: string): (h: Option<string>)
    ensures h.Some? <==> token != ""
    ensures h.Some? ==> h.value == token
  {
    if token != "" then Some(token) else None
  }

  datatype HttpMethod = Get | Post

  datatype Request = Request(verb: HttpMethod, target: Target, tokenHeader: Option<string>)

  /** `initWorkerLike` once its prerequisites are met: GET the count, POST a like. */
  class WorkerLike {
    const win: Window
    const likeId: string
    const key: string
    const target: Target
    const tokenHeader: Option<string>
    var liked: bool
    var count: int
    var shown: View
    /** The bind-time GET has been issued and has not settled. */
    var fetchPending: bool
    /** The click's POST has been issued and has not settled. */
    var postPending: bool
    var requests: seq<Request>

    function State(): LikeState
      reads this
    {
      LikeState(liked, count)
    }

    /**
      Every request goes to the one URL fixed at bind time with the same
      header: first the GET, then at most one POST, and only once liked.
     */
    ghost predicate Valid()
      reads this
    {
      && key == FlagKey(likeId)
      && shown == Render(State())
      && 1 <= |requests| <= 2
      && requests[0] == Request(Get, target, tokenHeader)
      && (|requests| == 2 ==> liked && requests[1] == Request(Post, target, tokenHeader))
      && (postPending ==> |requests| == 2)
    }

    /** Seed the flag from storage, count 0, render, issue the GET (js/like.js:135-144, 189-190). */
    constructor (win: Window, likeId: string, target: Target, tokenHeader: Option<string>)
      ensures Valid() && this.win == win && this.likeId == likeId
      ensures this.target == target && this.tokenHeader == tokenHeader
      ensures State() == RemoteSeed(win.storage, likeId)
      ensures requests == [Request(Get, target, tokenHeader)]
      ensures fetchPending && !postPending
    {
      this.win := win;
      this.likeId := likeId;
      this.target := target;
      this.tokenHeader := tokenHeader;
      key := FlagKey(likeId);
      var seeded := SafeGet(win.storage, FlagKey(likeId)) == Some("1");
      liked := seeded;
      count := 0;
      shown := Render(LikeState(seeded, 0));
      requests := [Request(Get, target, tokenHeader)];
      fetchPending := true;
      postPending := false;
    }

    /** The GET settles (js/like.js:152-166): a numeric `count` replaces the count. */
    method FetchResolved(reply: Reply)
      requires Valid() && fetchPending
      modifies this
      ensures Valid() && !fetchPending
      ensures State() == Reconcile(old(State()), reply)
      ensures requests == old(requests) && postPending == old(postPending)
    {
      match reply {
        case Number(n) =>
          count := n;
          shown := Render(State());
        case NotNumber =>
        case Failed =>
          shown := Render(State());
      }
      fetchPending := false;
    }

    /**
      The synchronous part of the click handler (js/like.js:168-178): nothing
      when already liked; otherwise like, count one more, write the flag only,
      render and POST.
     */
    method Click()
      requires Valid()
      modifies this, win`storage
      ensures Valid()
      ensures State() == RemoteClick(old(State()))
      ensures win.storage == RemoteClickStore(old(win.storage), likeId, old(State()))
      ensures old(liked) ==> unchanged(this)
      ensures !old(liked) ==> postPending && fetchPending == old(fetchPending)
      ensures !old(liked) ==> requests == old(requests) + [Request(Post, target, tokenHeader)]
    {
      if liked {
        return;
      }
      liked := true;
      count := count + 1;
      win.storage := SafeSet(win.storage, key, "1");
      shown := Render(State());
      requests := requests + [Request(Post, target, tokenHeader)];
      postPending := true;
    }

    /** The POST settles (js/like.js:179-186): a numeric `count` replaces the count. */
    method PostResolved(reply: Reply)
      requires Valid() && postPending
      modifies this
      ensures Valid() && !postPending && liked
      ensures State() == Reconcile(old(State()), reply)
      ensures requests == old(requests) && fetchPending == old(fetchPending)
    {
      if reply.Number? {
        count := reply.value;
        shown := Render(State());
      }
      postPending := false;
    }
  }

  /* -------------------------------------------------------------- dispatch */

  /** The provider a button ends up with. */
  datatype ProviderKind = LocalProvider | LeanCloudProvider | WorkerProvider

  /** One bound button, whichever provider serves it. */
  datatype Binding =
    | LocalBinding(local: LocalLike)
    | LeanCloudBinding(leanCloud: LeanCloudLike)
    | WorkerBinding(worker: WorkerLike)
  {
    function Object(): object {
      match this
      case LocalBinding(w) => w
      case LeanCloudBinding(w) => w
      case WorkerBinding(w) => w
    }
  }

  /** The per-provider settings `initPostLike` collects from the container's attributes. */
  datatype Config = Config(appId: string, appKey: string, serverURL: string, className: string,
                           endpoint: string, token: string)

  /** The container's attributes, by name. */
  type Markup = map<string, string>

  /** `container.getAttribute(name) || fallback`: an absent or empty attribute gives the fallback. */
  function Attr(m: Markup, name: string, fallback: string): (v: string)
    ensures Given(m, name) ==> v == m[name]
    ensures !Given(m, name) ==> v == fallback
  {
    if Given(m, name) then m[name] else fallback
  }

  /** The attribute is present and non-empty, so `getAttribute(name) || …` takes it. */
  predicate Given(m: Markup, name: string) {
    name in m && m[name] != ""
  }

  /** The page identity: the `data-like-id` attribute, or the path when it is absent or empty. */
  function LikeIdOf(m: Markup, pathname: string): (r: string)
    ensures Given(m, "data-like-id") ==> r == m["data-like-id"]
    ensures !Given(m, "data-like-id") ==> r == pathname
  {
    Attr(m, "data-like-id", pathname)
  }

  /** The title: the `data-like-title` attribute, or the document's when it is absent or empty. */
  function TitleOf(m: Markup, documentTitle: string): (r: string)
    ensures Given(m, "data-like-title") ==> r == m["data-like-title"]
    ensures !Given(m, "data-like-title") ==> r == documentTitle
  {
    Attr(m, "data-like-title", documentTitle)
  }

  /** The provider name: the `data-like-provider` attribute, "local" when absent or empty. */
  function ProviderOf(m: Markup): (r: string)
    ensures r != ""
    ensures Given(m, "data-like-provider") ==> r == m["data-like-provider"]
    ensures !Given(m, "data-like-provider") ==> r == "local"
  {
    Attr(m, "data-like-provider", "local")
  }

  /**
    The settings bundle: every setting comes from its attribute, an absent
    or empty one giving "" (the class name giving "PostLike").
   */
  function ConfigOf(m: Markup): (cfg: Config)
    ensures Given(m, "data-like-app-id") ==> cfg.appId == m["data-like-app-id"]
    ensures !Given(m, "data-like-app-id") ==> cfg.appId == ""
    ensures Given(m, "data-like-app-key") ==> cfg.appKey == m["data-like-app-key"]
    ensures !Given(m, "data-like-app-key") ==> cfg.appKey == ""
    ensures Given(m, "data-like-server-url") ==> cfg.serverURL == m["data-like-server-url"]
    ensures !Given(m, "data-like-server-url") ==> cfg.serverURL == ""
    ensures Given(m, "data-like-endpoint") ==> cfg.endpoint == m["data-like-endpoint"]
    ensures !Given(m, "data-like-endpoint") ==> cfg.endpoint == ""
    ensures Given(m, "data-like-token") ==> cfg.token == m["data-like-token"]
    ensures !Given(m, "data-like-token") ==> cfg.token == ""
    ensures Given(m, "data-like-class-name") ==> cfg.className == m["data-like-class-name"]
    ensures !Given(m, "data-like-class-name") ==> cfg.className == "PostLike"
    ensures cfg.className != ""
  {
    Config(Attr(m, "data-like-app-id", ""), Attr(m, "data-like-app-key", ""),
           Attr(m, "data-like-server-url", ""), Attr(m, "data-like-class-name", "PostLike"),
           Attr(m, "data-like-endpoint", ""), Attr(m, "data-like-token", ""))
  }

  /** The provider named in the markup, before any fallback (js/like.js:214-220). */
  function SelectProvider(name: string): (k: ProviderKind)
    ensures k == LeanCloudProvider <==> name == "leancloud"
    ensures k == WorkerProvider <==> name == "worker" || name == "cloudflare"
    ensures k == LocalProvider <==> name != "leancloud" && name != "worker" && name != "cloudflare"
  {
    if name == "leancloud" then LeanCloudProvider
    else if name == "worker" || name == "cloudflare" then WorkerProvider
    else LocalProvider
  }

  /** The object-store provider needs an app id, an app key and the SDK (js/like.js:49). */
  predicate ObjectStoreReady(cfg: Config, hasAv: bool) {
    cfg.appId != "" && cfg.appKey != "" && hasAv
  }

  /** The endpoint provider needs an endpoint and `fetch` (js/like.js:130, 146-147). */
  predicate EndpointReady(cfg: Config, hasFetch: bool) {
    cfg.endpoint != "" && hasFetch
  }

  /**
    The provider that actually serves the button: the one named, unless its
    prerequisites are missing, in which case the local-only one. Only the
    exact names select a remote provider.
   */
  function Dispatch(name: string, cfg: Config, hasAv: bool, hasFetch: bool): (k: ProviderKind)
    ensures k == LeanCloudProvider <==> name == "leancloud" && ObjectStoreReady(cfg, hasAv)
    ensures k == WorkerProvider <==> (name == "worker" || name == "cloudflare") && EndpointReady(cfg, hasFetch)
    ensures k == LocalProvider <==> !(SelectProvider(name) == LeanCloudProvider && ObjectStoreReady(cfg, hasAv))
                                    && !(SelectProvider(name) == WorkerProvider && EndpointReady(cfg, hasFetch))
  {
    match SelectProvider(name)
    case LeanCloudProvider => if ObjectStoreReady(cfg, hasAv) then LeanCloudProvider else LocalProvider
    case WorkerProvider => if EndpointReady(cfg, hasFetch) then WorkerProvider else LocalProvider
    case LocalProvider => LocalProvider
  }

  /** A local-only button just seeded from storage. */
  ghost predicate LocalFresh(w: LocalLike, win: Window, likeId: string)
    reads w, win
  {
    w.Valid() && w.win == win && w.likeId == likeId && w.State() == LocalSeed(win.storage, likeId)
  }

  /** An object-store button just seeded, its query in flight and nothing else sent. */
  ghost predicate LeanCloudFresh(w: LeanCloudLike, win: Window, likeId: string, title: string, className: string)
    reads w, win
  {
    && w.Valid() && w.win == win && w.likeId == likeId && w.title == title && w.className == className
    && w.State() == RemoteSeed(win.storage, likeId)
    && w.calls == [FirstMatch(className, likeId)]
    && w.queryPending && !w.savePending && !w.hasRecord
  }

  /** An endpoint button just seeded, its GET in flight and nothing else sent. */
  ghost predicate WorkerFresh(w: WorkerLike, win: Window, likeId: string, target: Target, tokenHeader: Option<string>)
    reads w, win
  {
    && w.Valid() && w.win == win && w.likeId == likeId && w.target == target && w.tokenHeader == tokenHeader
    && w.State() == RemoteSeed(win.storage, likeId)
    && w.requests == [Request(Get, target, tokenHeader)]
    && w.fetchPending && !w.postPending
  }

  /**
    `initLeanCloudLike` (js/like.js:43-114). Without an app id, an app key or
    the SDK it is `initLocalLike` and touches nothing else; otherwise it
    initialises the SDK unless that already happened, then binds.
   */
  method InitLeanCloudLike(win: Window, likeId: string, title: string, cfg: Config) returns (b: Binding)
    requires win.Valid()
    modifies win`avInited, win`avInits
    ensures win.Valid() && fresh(b.Object())
    ensures !ObjectStoreReady(cfg, win.hasAv) ==>
              b.LocalBinding? && LocalFresh(b.local, win, likeId) && unchanged(win)
    ensures ObjectStoreReady(cfg, win.hasAv) ==>
              b.LeanCloudBinding?
              && LeanCloudFresh(b.leanCloud, win, likeId, title, if cfg.className != "" then cfg.className else "PostLike")
    ensures ObjectStoreReady(cfg, win.hasAv) && !old(win.avInited) ==>
              win.avInits == [AvConfig(cfg.appId, cfg.appKey, cfg.serverURL)]
    ensures old(win.avInited) ==> unchanged(win)
  {
    if cfg.appId == "" || cfg.appKey == "" || !win.hasAv {
      var w := new LocalLike(win, likeId);
      return LocalBinding(w);
    }
    var className := if cfg.className != "" then cfg.className else "PostLike";
    if !win.avInited {
      win.avInited := true;
      win.avInits := win.avInits + [AvConfig(cfg.appId, cfg.appKey, cfg.serverURL)];
    }
    var w := new LeanCloudLike(win, likeId, title, className);
    b := LeanCloudBinding(w);
  }

  /**
    `initWorkerLike` (js/like.js:128-191). Without an endpoint or `fetch` it
    is `initLocalLike`; otherwise it binds to the URL built once here.
   */
  method InitWorkerLike(win: Window, likeId: string, title: string, cfg: Config) returns (b: Binding)
    ensures fresh(b.Object())
    ensures !EndpointReady(cfg, win.hasFetch) ==> b.LocalBinding? && LocalFresh(b.local, win, likeId)
    ensures EndpointReady(cfg, win.hasFetch) ==>
              b.WorkerBinding?
              && WorkerFresh(b.worker, win, likeId, BuildEndpoint(cfg.endpoint, likeId, title).value, TokenHeader(cfg.token))
  {
    if cfg.endpoint == "" || !win.hasFetch {
      var w := new LocalLike(win, likeId);
      return LocalBinding(w);
    }
    var tokenHeader := TokenHeader(cfg.token);
    var getUrl := BuildEndpoint(cfg.endpoint, likeId, title);
    match getUrl {
      case None =>
        var w := new LocalLike(win, likeId);
        b := LocalBinding(w);
      case Some(target) =>
        var w := new WorkerLike(win, likeId, target, tokenHeader);
        b := WorkerBinding(w);
    }
  }

  /** What `initPostLike` leaves behind for a container with markup `m`. */
  ghost predicate BoundAs(b: Binding, win: Window, m: Markup)
    reads b.Object(), win
  {
    var likeId := LikeIdOf(m, win.pathname);
    var title := TitleOf(m, win.documentTitle);
    var cfg := ConfigOf(m);
    match Dispatch(ProviderOf(m), cfg, win.hasAv, win.hasFetch)
    case LocalProvider =>
      b.LocalBinding? && LocalFresh(b.local, win, likeId)
    case LeanCloudProvider =>
      b.LeanCloudBinding? && LeanCloudFresh(b.leanCloud, win, likeId, title, cfg.className)
    case WorkerProvider =>
      b.WorkerBinding?
      && WorkerFresh(b.worker, win, likeId, BuildEndpoint(cfg.endpoint, likeId, title).value, TokenHeader(cfg.token))
  }

  /**
    `initPostLike` (js/like.js:193-221): binds the button at most once, then
    hands the container's settings to the provider its markup names. The SDK
    is initialised at most once per page, with the settings of the first
    object-store button that gets that far.
   */
  method InitPostLike(win: Window, container: Option<Markup>, btn: Button?) returns (b: Option<Binding>)
    requires win.Valid()
    modifies win`avInited, win`avInits, btn
    ensures win.Valid()
    ensures b.Some? <==> container.Some? && btn != null && !old(btn.bound)
    ensures container.Some? && btn != null ==> btn.bound
    ensures b.None? ==> unchanged(win) && (btn != null ==> unchanged(btn))
    ensures b.Some? ==> fresh(b.value.Object()) && BoundAs(b.value, win, container.value)
    ensures old(win.avInited) ==> unchanged(win)
    ensures b.Some? && !old(win.avInited) && Dispatch(ProviderOf(container.value), ConfigOf(container.value), win.hasAv, win.hasFetch) == LeanCloudProvider
            ==> win.avInits == [AvConfig(ConfigOf(container.value).appId, ConfigOf(container.value).appKey, ConfigOf(container.value).serverURL)]
    ensures !(b.Some? && Dispatch(ProviderOf(container.value), ConfigOf(container.value), win.hasAv, win.hasFetch) == LeanCloudProvider)
            ==> unchanged(win)
  {
    if container.None? || btn == null || btn.bound {
      return None;
    }
    btn.bound := true;
    var m := container.value;
    var likeId := LikeIdOf(m, win.pathname);
    var title := TitleOf(m, win.documentTitle);
    var provider := ProviderOf(m);
    var cfg := ConfigOf(m);
    var bound: Binding;
    if provider == "leancloud" {
      bound := InitLeanCloudLike(win, likeId, title, cfg);
    } else if provider == "worker" || provider == "cloudflare" {
      bound := InitWorkerLike(win, likeId, title, cfg);
    } else {
      var w := new LocalLike(win, likeId);
      bound := LocalBinding(w);
    }
    b := Some(bound);
  }

  /** A button is bound by the first call only; a second call on it does nothing. */
  method BindOnceScenario() {
    var win := new Window(Storage(map[], true, true), false, false, "/a", "A");
    var btn := new Button(false);
    var first := InitPostLike(win, Some(map[]), btn);
    assert first.Some? && btn.bound;
    var second := InitPostLike(win, Some(map[]), btn);
    assert second == None;
  }

  /**
    A page served by an endpoint: the GET reports 5 likes, the reader likes
    the post, a second click does nothing, and the POST reports 6.
   */
  method EndpointScenario() {
    var win := new Window(Storage(map[], true, true), false, true, "/a", "A");
    var b := InitWorkerLike(win, "/a", "A", Config("", "", "", "PostLike", "https://e", ""));
    var w := b.worker;
    assert w.State() == LikeState(false, 0);
    w.FetchResolved(Number(5));
    w.Click();
    assert w.State() == LikeState(true, 6);
    w.Click();
    assert |w.requests| == 2;
    w.PostResolved(Number(6));
    assert w.State() == LikeState(true, 6);
  }

  /**
    An object-store button without an app key on a page that has the SDK:
    it is served locally, the SDK stays uninitialised, and a click likes.
   */
  method FallbackScenario() {
    var win := new Window(Storage(map[], true, true), true, true, "/b", "B");
    var b := InitLeanCloudLike(win, "/b", "B", Config("id", "", "", "PostLike", "", ""));
    assert win.avInits == [];
    var w := b.local;
    assert w.State() == LikeState(false, 0);
    w.Click();
    assert w.State() == LikeState(true, 1);
    assert SafeGet(win.storage, FlagKey("/b")) == Some("1");
  }
}

=== FILE: state.dfy ===
/**
  The like button's state machine, independent of any object: the
  `(liked, count)` pair, how each provider seeds it from local storage, how a
  click changes it, what a click writes back, how a remote reply reconciles
  it, and how `render` projects it onto the button.

  The classes in module Providers hold this state in mutable fields and are
  proved to follow these functions step by step.
 */
module LikeState {
  import opened Optional
  import opened SafeStorage
  import opened JsNumber

  /** Prefix of every storage key the button uses (js/like.js:19, 60, 136). */
  const Namespace: string := "hexo-like:"

  /** The entry holding the "1"/"0" toggle flag for one page. */
  function FlagKey(likeId: string): (k: string)
    ensures |k| == |Namespace| + |likeId|
    ensures k[..|Namespace|] == Namespace && k[|Namespace|..] == likeId
  {
    Namespace + likeId
  }

  /** The entry holding the decimal count for one page; never the flag entry. */
  function CountKey(likeId: string): (k: string)
    ensures k != FlagKey(likeId)
  {
    FlagKey(likeId) + ":count"
  }

  /**
    The two key families overlap: the flag entry of the page whose identity
    ends in ":count" is the count entry of the page without that suffix.
   */
  lemma FlagKeyCanBeCountKey(likeId: string)
    ensures FlagKey(likeId + ":count") == CountKey(likeId)
  {
    assert Namespace + (likeId + ":count") == (Namespace + likeId) + ":count";
  }

  datatype LikeState = LikeState(liked: bool, count: int)

  function FlagText(liked: bool): string {
    if liked then "1" else "0"
  }

  function Max(a: int, b: int): int {
    if a < b then b else a
  }

  /* ---------------------------------------------------------------- seeding */

  /** `safeGet(key) === '1'`: only the exact text "1" counts as liked. */
  function SeedLiked(st: Storage, likeId: string): (r: bool)
    ensures r <==> SafeGet(st, FlagKey(likeId)) == Some("1")
  {
    var raw := SafeGet(st, FlagKey(likeId));
    raw.Some? && raw.value == "1"
  }

  /**
    `parseInt(safeGet(countKey) || '0', 10)` with NaN replaced by 0: a missing,
    empty or non-numeric entry gives 0, anything else its leading integer.
   */
  function SeedCount(raw: Option<string>): (c: int)
    ensures raw.None? ==> c == 0
    ensures raw.Some? && ParseInt(raw.value).None? ==> c == 0
    ensures raw.Some? && ParseInt(raw.value).Some? ==> c == ParseInt(raw.value).value
  {
    var text := if raw.None? || raw.value == "" then "0" else raw.value;
    ParseZero();
    match ParseInt(text)
    case None => 0
    case Some(n) => n
  }

  /** Seed of the local-only provider (js/like.js:22-24): flag and count from storage. */
  function LocalSeed(st: Storage, likeId: string): (r: LikeState)
    ensures r.liked <==> SafeGet(st, FlagKey(likeId)) == Some("1")
    ensures SafeGet(st, CountKey(likeId)).None? ==> r.count == 0
    ensures SafeGet(st, CountKey(likeId)).Some? ==>
              var parsed := ParseInt(SafeGet(st, CountKey(likeId)).value);
              r.count == if parsed.Some? then parsed.value else 0
  {
    LikeState(SeedLiked(st, likeId), SeedCount(SafeGet(st, CountKey(likeId))))
  }

  /** Seed of both remote providers (js/like.js:61-62, 137-138): flag from storage, count 0. */
  function RemoteSeed(st: Storage, likeId: string): (r: LikeState)
    ensures r.liked <==> SafeGet(st, FlagKey(likeId)) == Some("1")
    ensures r.count == 0
    ensures r.liked == LocalSeed(st, likeId).liked
  {
    LikeState(SeedLiked(st, likeId), 0)
  }

  /* ------------------------------------------------------ local-only provider */

  /**
    A click on the local-only button: flip the flag, count one more when it
    becomes liked and one less when it becomes unliked, never below 0.
   */
  function LocalClick(s: LikeState): (r: LikeState)
    ensures r.liked == !s.liked
    ensures r.count >= 0
    ensures !s.liked && s.count >= 0 ==> r.count == s.count + 1
    ensures s.liked && s.count >= 1 ==> r.count == s.count - 1
    ensures s.liked && s.count <= 0 ==> r.count == 0
    ensures !s.liked && s.count < 0 ==> r.count == 0
  {
    var liked := !s.liked;
    LikeState(liked, Max(0, s.count + (if liked then 1 else -1)))
  }

  /** What a local click writes: the flag entry, then the count entry. */
  function LocalPersist(st: Storage, likeId: string, s: LikeState): (r: Storage)
    ensures r.readable == st.readable && r.writable == st.writable
    ensures st.writable ==> r.entries == st.entries[FlagKey(likeId) := FlagText(s.liked)][CountKey(likeId) := IntToString(s.count)]
    ensures !st.writable ==> r == st
    ensures forall k :: k != FlagKey(likeId) && k != CountKey(likeId) ==> SafeGet(r, k) == SafeGet(st, k)
  {
    var afterFlag := SafeSet(st, FlagKey(likeId), FlagText(s.liked));
    SafeSet(afterFlag, CountKey(likeId), IntToString(s.count))
  }

  /** Reading back what `LocalPersist` wrote gives the same state (a page reload). */
  lemma PersistRoundTrip(st: Storage, likeId: string, s: LikeState)
    requires st.readable && st.writable
    ensures LocalSeed(LocalPersist(st, likeId, s), likeId) == s
  {
    var r := LocalPersist(st, likeId, s);
    assert SafeGet(r, FlagKey(likeId)) == Some(FlagText(s.liked));
    assert SafeGet(r, CountKey(likeId)) == Some(IntToString(s.count));
    ParseIntOfIntToString(s.count, "");
    assert IntToString(s.count) + "" == IntToString(s.count);
  }

  /** `n` clicks in a row on the local-only button. */
  function LocalRun(s: LikeState, n: nat): LikeState {
    if n == 0 then s else LocalClick(LocalRun(s, n - 1))
  }

  /** Every click flips the flag, and after at least one click the count is non-negative. */
  lemma {:induction false} LocalRunParity(s: LikeState, n: nat)
    ensures LocalRun(s, n).liked == (s.liked != (n % 2 == 1))
    ensures n >= 1 ==> LocalRun(s, n).count >= 0
  {
    if n > 0 {
      LocalRunParity(s, n - 1);
    }
  }

  /**
    From "not liked, c likes" the button alternates between "liked, c + 1" and
    back: the count is c plus the likes minus the unlikes.
   */
  lemma {:induction false} LocalRunFromUnliked(c: nat, n: nat)
    ensures LocalRun(LikeState(false, c), n) == LikeState(n % 2 == 1, c + n % 2)
  {
    if n > 0 {
      LocalRunFromUnliked(c, n - 1);
    }
  }

  /**
    From "liked, 0 likes" (a flag stored without a count) the first click
    cannot go below 0, and from then on the button alternates between
    "not liked, 0" and "liked, 1".
   */
  lemma {:induction false} LocalRunFromLikedAtZero(n: nat)
    requires n >= 1
    ensures LocalRun(LikeState(true, 0), n) == LikeState(n % 2 == 0, if n % 2 == 0 then 1 else 0)
  {
    if n == 1 {
      assert LocalRun(LikeState(true, 0), 0) == LikeState(true, 0);
    } else {
      LocalRunFromLikedAtZero(n - 1);
    }
  }

  /** From "liked, c likes" with c >= 1 the button alternates with "not liked, c - 1". */
  lemma {:induction false} LocalRunFromLiked(c: int, n: nat)
    requires c >= 1
    ensures LocalRun(LikeState(true, c), n) == LikeState(n % 2 == 0, c - n % 2)
  {
    if n > 0 {
      LocalRunFromLiked(c, n - 1);
    }
  }

  /* ------------------------------------------------------- remote providers */

  /**
    The optimistic phase of a click on either remote button: a no-op when
    already liked, otherwise "liked" with one more like.
   */
  function RemoteClick(s: LikeState): (r: LikeState)
    ensures r.liked
    ensures s.liked ==> r == s
    ensures !s.liked ==> r.count == s.count + 1
  {
    if s.liked then s else LikeState(true, s.count + 1)
  }

  /** What the optimistic phase writes: only the flag, only when it was not liked. */
  function RemoteClickStore(st: Storage, likeId: string, s: LikeState): (r: Storage)
    ensures s.liked ==> r == st
    ensures !s.liked ==> r == SafeSet(st, FlagKey(likeId), "1")
    ensures forall k :: k != FlagKey(likeId) ==> SafeGet(r, k) == SafeGet(st, k)
  {
    if s.liked then st else SafeSet(st, FlagKey(likeId), "1")
  }

  /** The outcome of a remote call whose reply carries a count. */
  datatype Reply =
    | Number(value: int)  // the reply's count is a number
    | NotNumber           // the reply arrived, its count is not a number
    | Failed              // the call or the decoding of its reply threw

  /** The reconciliation phase: only a numeric count replaces the count; `liked` is kept. */
  function Reconcile(s: LikeState, reply: Reply): (r: LikeState)
    ensures r.liked == s.liked
    ensures reply.Number? ==> r.count == reply.value
    ensures !reply.Number? ==> r == s
  {
    match reply
    case Number(n) => s.(count := n)
    case _ => s
  }

  /** The `count` field of a remote object-store record, as `obj.get('count')` returns it. */
  datatype RecordCount = CountField(value: int) | NoCountField

  /** The outcome of the bind-time point query of the object-store provider. */
  datatype QueryReply = Found(field: RecordCount) | NotFound | QueryFailed

  /** `obj.get('count') || 0`: an absent or zero count gives 0, any other count is kept. */
  function CountOrZero(f: RecordCount): (r: int)
    ensures r == 0 <==> f.NoCountField? || f.value == 0
    ensures r != 0 ==> f.CountField? && r == f.value
  {
    match f
    case CountField(n) => n
    case NoCountField => 0
  }

  /** The query continuation: a found record sets the count, none found sets 0, a failure keeps it. */
  function ApplyQuery(s: LikeState, q: QueryReply): (r: LikeState)
    ensures r.liked == s.liked
    ensures q.Found? && q.field.CountField? ==> r.count == q.field.value
    ensures (q.NotFound? || (q.Found? && q.field.NoCountField?)) ==> r.count == 0
    ensures q.QueryFailed? ==> r == s
  {
    match q
    case Found(f) => s.(count := CountOrZero(f))
    case NotFound => s.(count := 0)
    case QueryFailed => s
  }

  /** Everything that can happen to a remote button after it is bound. */
  datatype RemoteEvent = Clicked | Reconciled(reply: Reply) | Queried(query: QueryReply)

  function RemoteStep(s: LikeState, e: RemoteEvent): LikeState {
    match e
    case Clicked => RemoteClick(s)
    case Reconciled(reply) => Reconcile(s, reply)
    case Queried(q) => ApplyQuery(s, q)
  }

  function RemoteRun(s: LikeState, events: seq<RemoteEvent>): LikeState
    decreases |events|
  {
    if events == [] then s else RemoteRun(RemoteStep(s, events[0]), events[1..])
  }

  /**
    Remote buttons never un-like: whatever clicks and replies arrive, in any
    order, the button ends liked exactly when it started liked or was clicked.
   */
  lemma {:induction false} RemoteNeverUnlikes(s: LikeState, events: seq<RemoteEvent>)
    ensures RemoteRun(s, events).liked <==> s.liked || Clicked in events
    decreases |events|
  {
    if events != [] {
      RemoteNeverUnlikes(RemoteStep(s, events[0]), events[1..]);
      assert events == [events[0]] + events[1..];
    }
  }

  /** Any run of clicks on a liked remote button leaves its state as it was. */
  lemma {:induction false} RemoteClicksIgnoredWhenLiked(s: LikeState, events: seq<RemoteEvent>)
    requires s.liked
    requires forall i :: 0 <= i < |events| ==> events[i] == Clicked
    ensures RemoteRun(s, events) == s
  {
    if events != [] {
      RemoteClicksIgnoredWhenLiked(s, events[1..]);
    }
  }

  /* ------------------------------------------------------------------- render */

  /** What `render` puts on the page: the `is-liked` class, `aria-pressed` and the count text. */
  datatype View = View(isLiked: bool, ariaPressed: string, countText: string)

  function Render(s: LikeState): (v: View)
    ensures v.isLiked == s.liked
    ensures v.ariaPressed == "true" || v.ariaPressed == "false"
    ensures v.ariaPressed == "true" <==> s.liked
    ensures v.countText != [] && (v.countText[0] == '-' <==> s.count < 0)
  {
    View(s.liked, if s.liked then "true" else "false", IntToString(s.count))
  }

  /**
    The rendered view shows the whole state: the pressed attribute agrees with
    the class, the count text reads back as the count, and two states with the
    same view are the same state.
   */
  lemma RenderShowsState(s: LikeState, t: LikeState)
    ensures Render(s).ariaPressed == "true" <==> Render(s).isLiked
    ensures ParseInt(Render(s).countText) == Some(s.count)
    ensures Render(s) == Render(t) ==> s == t
  {
    ParseIntOfIntToString(s.count, "");
    assert IntToString(s.count) + "" == IntToString(s.count);
    if Render(s) == Render(t) {
      IntToStringInjective(s.count, t.count);
    }
  }
}

=== FILE: storage.dfy ===
/** A value that may be absent: JavaScript's `null` for a missing storage entry. */
module Optional {
  datatype Option<+T> = None | Some(value: T)
}

/**
  The local persistence adapter of js/like.js: `safeGet` and `safeSet` wrap the
  browser's `localStorage` and swallow every exception it throws.

  The store is a string-to-string map. Whether the browser lets the page read
  it (storage disabled, private mode) and whether a write is accepted (quota
  exceeded) are properties of the environment, recorded as two flags: a read
  that would throw yields `None`, a write that would throw changes nothing.
 */
module SafeStorage {
  import opened Optional

  datatype Storage = Storage(entries: map<string, string>, readable: bool, writable: bool)

  /** `safeGet(key)`: the stored string, or `None` when absent or unreadable. */
  function SafeGet(st: Storage, key: string): (r: Option<string>)
    ensures r.Some? <==> st.readable && key in st.entries
    ensures r.Some? ==> r.value == st.entries[key]
  {
    if st.readable && key in st.entries then Some(st.entries[key]) else None
  }

  /** `safeSet(key, value)`: store the entry, or do nothing when the write fails. */
  function SafeSet(st: Storage, key: string, value: string): (r: Storage)
    ensures r.readable == st.readable && r.writable == st.writable
    ensures st.writable ==> r.entries == st.entries[key := value]
    ensures !st.writable ==> r == st
  {
    if st.writable then st.(entries := st.entries[key := value]) else st
  }

  /** A successful write is seen by the next read of the same key and by no other key. */
  lemma GetAfterSet(st: Storage, key: string, value: string, other: string)
    ensures st.readable && st.writable ==> SafeGet(SafeSet(st, key, value), key) == Some(value)
    ensures other != key ==> SafeGet(SafeSet(st, key, value), other) == SafeGet(st, other)
  {
  }
}
